=== FILE: README.md ===
# slowlint: ignore-list reconciliation, modelled in Dafny

slowlint lets a team adopt ESLint on a legacy codebase gradually. Files that
fail today are recorded in a temporary ignore list (`now.eslintignore`), and
files that should never be linted sit in a permanent list (`.eslintignore`).
Three commands use these lists:

- `lint` fails when a file outside both lists has errors.
- `check-good` re-examines the temporarily ignored files. It fails when some of them now pass ("drift").
- `save-ignored` rewrites the temporary list from the current bad files.

This project models the deterministic core of that tool as pure functions over
strings and sequences:

- reading an ignore list (`getIgnoredFiles`, `getIgnoredForeverFiles`);
- the pure part of `lintAll`: the patterns handed to the linter, stripping the working directory from bad paths, the counts, and cutting the log;
- the decision logic of the three commands and of `fixFilesArgs`.

The linter is a function parameter (`Lint.Engine`). It receives the targets and
ignore patterns and returns the absolute paths of files with errors, the number
of files its counting preprocessor saw, and the formatted log. The two ignore
files are inputs (`IgnoreLists.Disk`). The working directory is a parameter. Each
command returns its exit code, and save-ignored also returns the text it writes.

Modules, leaves first:

- `Optional`: `Option`, for JavaScript `null`.
- `Text`: `startsWith`, `split('\n')`, `join('\n')`, `trim()`, `indexOf`, and `replace(pattern, '')`.
- `Seqs`: order-preserving `filter` and the subsequence relation.
- `IgnoreLists`: reading both ignore files (slowlint.js).
- `Lint`: `lintAll` (slowlint.js).
- `Cli`: bin/bin.js.

The model follows the code as written, which is looser than a tidier design would be:

- There is no `ignoreFilePath` option. The temporary list always has the fixed name `now.eslintignore` (slowlint.js:7).
- Entries are not rebased relative to the ignore file's directory.
- Entries are not trimmed, and blank lines are kept.
- File arguments are trimmed (bin/bin.js:90). Ignore-file entries are not.

## Model

| member | source | states |
|---|---|---|
| Text.Split | slowlint.js:17-18 | `split('\n')` yields one piece more than there are separators, and no piece contains a separator; the empty text gives one empty piece |
| Text.JoinSplit | slowlint.js:17-18 | joining the pieces of any text with '\n' (`Text.Join`, the model of `join('\n')`, which carries no contract of its own) rebuilds that text exactly |
| Text.SplitJoin | bin/bin.js:28 | splitting the `join('\n')` (`Text.Join`) of separator-free pieces gives back the pieces, except that the empty list comes back as one empty piece |
| Text.Trim | bin/bin.js:89-90 | `trim()` returns the slice of the argument between whitespace-only ends, and that slice neither starts nor ends with whitespace |
| Text.TrimIdempotent | bin/bin.js:90 | trimming an already trimmed argument changes nothing |
| Text.IndexFrom | slowlint.js:100 | the search behind `Text.IndexOf` (which starts it at 0) finds the first occurrence of the pattern at or after the start index, or reports that there is none |
| Text.RemoveFirst | slowlint.js:99-100 | `replace(pattern, '')` removes exactly the first occurrence: the text before it followed by the text after it; a leading pattern leaves the rest of the text, a missing pattern leaves the text unchanged |
| Text.RemoveFirstReinsert | slowlint.js:99-100 | putting the pattern back at its first occurrence rebuilds the original text, so nothing else is lost |
| Seqs.Filter | slowlint.js:23-24 | `filter` keeps exactly the elements that pass, in their order and with their multiplicity: the result is a subsequence, and an element's count is its original count or zero |
| IgnoreLists.ReadIgnoreList | slowlint.js:15-52 | the logic both readers share, with `Text.StartsWith` as `startsWith`: a missing or unreadable file, or null file arguments, give no entries; a first argument "." gives every line; otherwise the result is the subsequence of lines that start with some argument, with their full multiplicity |
| IgnoreLists.TemporaryIgnored | slowlint.js:15-31 | `getIgnoredFiles`: `ReadIgnoreList` of the temporary file; a failed or missing read gives no entries, "." first gives every line, otherwise every entry matches an argument |
| IgnoreLists.ForeverIgnored | slowlint.js:33-52 | `getIgnoredForeverFiles`: `ReadIgnoreList` of the permanent file; a missing file (checked first) or failed read gives no entries, "." first gives every line, otherwise every entry matches an argument |
| IgnoreLists.EntriesMatch | slowlint.js:23-24 | without ".", every entry read from any file state matches some file argument |
| IgnoreLists.FilteredMembership | slowlint.js:23-24 | without ".", a line is an entry if and only if it is a line of the file and starts with some argument |
| IgnoreLists.AllLinesMatch | slowlint.js:45-46 | when every line starts with some argument, the filtered list is the whole file |
| IgnoreLists.NoFileArgumentsNoEntries | slowlint.js:24 | an empty argument array makes every file produce no entries |
| IgnoreLists.PrefixIsNotSegmentAware | slowlint.js:24 | an argument keeps every line that merely begins with its characters ("test" keeps "testX/a.js") and drops a line that does not start with it |
| IgnoreLists.DotOnlyCountsFirst | slowlint.js:19-22 | "." in a later position is an ordinary prefix: lines not starting with any argument are still dropped |
| Lint.Plan | slowlint.js:71-77 | the linter gets the permanent entries, followed by the temporary entries only with `ignoreBad`; `ignoredFilesNum` is the temporary count with `ignoreBad` and 0 without; the targets are the arguments, or "." when they are null (slowlint.js:95) |
| Lint.StripCwd | slowlint.js:98-100 | a bad path starting with the working directory and "/" loses exactly that prefix; a path not containing it is unchanged; otherwise exactly the first occurrence is cut out, wherever it is |
| Lint.StripCwdRestores | slowlint.js:98-100 | a path under the working directory is the directory, a slash and its stripped form |
| Lint.StripAll | slowlint.js:99-100 | every bad path is stripped, one for one, in the linter's order |
| Lint.TruncateLog | slowlint.js:101-104 | a log of at most 1000 characters is unchanged; a longer one keeps its first 1000 characters followed by "...", 1003 in all; never more than 1003 |
| Lint.TruncateIdempotent | slowlint.js:101-104 | cutting an already cut log changes nothing |
| Lint.BuildReport | slowlint.js:98-111 | `badFilesNum` is the number of bad paths, `goodFilesNum + badFilesNum` equals the processed count, the bad files are the linter's paths each stripped, in order, and the log is the formatter's output cut to at most 1003 characters |
| Lint.LintAll | slowlint.js:63-112 | for the planned request, the report's bad files are the linter's stripped paths, its log is the linter's cut formatted output, its counts balance against the linter's processed count, and its ignored count follows `ignoreBad` |
| Lint.GoodCountCanBeNegative | slowlint.js:108 | the good count is plain subtraction and can be negative |
| Lint.TemporaryIrrelevantWithoutIgnoreBad | slowlint.js:72-77 | without `ignoreBad` neither the request nor the report depends on the temporary file |
| Lint.ExclusionGrowsWithIgnoreBad | slowlint.js:72-76 | the patterns used without `ignoreBad` are a prefix of those used with it |
| Cli.FixFilesArgs | bin/bin.js:84-91 | null or empty arguments give null; otherwise the result has the same length and each element is the trimmed argument |
| Cli.FixFilesArgsIdempotent | bin/bin.js:84-91 | cleaning up arguments twice is the same as once |
| Cli.LintCommand | bin/bin.js:58-82 | `lint` lints the file arguments with both lists excluded, reports the linter's stripped error paths as bad files, and exits 1 exactly when the linter reported some file, 0 otherwise |
| Cli.NowGood | bin/bin.js:38 | the drift list holds exactly the ignored entries not among the bad files, in the ignored list's order and multiplicity |
| Cli.NoDriftIffStillBad | bin/bin.js:38-39 | there is no drift exactly when every ignored entry is still a bad file |
| Cli.CheckGood | bin/bin.js:34-56 | `check-good` lints the file arguments with only the permanent list excluded; its bad files are the linter's stripped paths; its drift list is the temporary entries not among them, in order; it exits 1 exactly when that list is non-empty |
| Cli.SaveIgnored | bin/bin.js:22-31 | `save-ignored` lints with only the permanent list excluded, exits 0, and writes the linter's stripped bad paths joined by '\n', whose lines read back as those paths when no path contains '\n' (one empty line when there are none) |
| Cli.SnapshotReplacesPrior | bin/bin.js:25-28 | the written text does not depend on what the temporary list held before |
| Cli.SnapshotRoundTrip | bin/bin.js:28 | reading the snapshot back gives the bad files again, when there is at least one, none spans lines, and the arguments are "." or cover every bad path by prefix |
| Cli.EmptySnapshotReadsBackOneBlank | bin/bin.js:28 | with no bad files the snapshot is "", and it reads back under "." as one empty entry |
| Cli.NoDriftAfterSnapshot | bin/bin.js:38 | `check-good` straight after `save-ignored` with the same arguments and linter exits 0 when the snapshot round-trips |
| Cli.DriftAfterEmptySnapshot | bin/bin.js:38-48 | after a snapshot of a clean run, `check-good` with "." first reports the empty entry as newly good and exits 1 |
| Cli.Run | bin/bin.js:100-114 | a command with null or empty file arguments throws before linting (logging joins the null result); otherwise the chosen command runs on the trimmed arguments, the run exits with that command's code (0 or 1), and only `save-ignored` writes, writing its snapshot |
| Cli.RunIgnoresSurroundingBlanks | bin/bin.js:100-114 | running a command on arguments already cleaned up by `fixFilesArgs` ends exactly as running it on the raw arguments |

## Left out

- Loading ESLint by path, building the `CLIEngine`, `executeOnFiles`, `getErrorResults`, the formatter and the counting preprocessor plugin (slowlint.js:64-97). These are foreign calls. Their combined result is the `Lint.Engine` parameter.
- No property assumes anything about how the linter treats its ignore patterns. So "files listed in the temporary list do not fail `lint`" is not stated: it depends entirely on ESLint.
- Filesystem access: `readFileSync`, `existsSync` and `writeFileSync`. The two ignore files are `IgnoreLists.FileState` inputs, and the written snapshot is a returned string.
- A failing `writeFileSync` in save-ignored is not modelled.
- Cli.Run: exceptions from loading ESLint by path or from running it (slowlint.js:66, slowlint.js:95) are not modelled, because the linter is a total function parameter; so `Threw` arises only from empty file arguments, while the real tool can also end with an uncaught exception for non-empty arguments.
- `process.cwd()` is the `cwd` parameter.
- `process.exit` becomes a returned code.
- The yargs command and option wiring, `logArgs` output (only its throw on null arguments is kept), `debug` console output, and `performance-now` timing.
- Non-string file arguments (yargs may parse a numeric argument as a number, whose `trim` would throw) are not modelled: arguments are strings.
- Lint.TruncateLog: counts Unicode scalar values, while JavaScript's `length` and `substr` count UTF-16 code units. The two agree only for text within the Basic Multilingual Plane.
- Text.Trim: uses the ECMAScript whitespace set written out explicitly (the space separators of Unicode category Zs as of Unicode 15), not a live Unicode database.
- Text.Split: like Lint.TruncateLog, works on Unicode scalar values rather than UTF-16 code units. A lone surrogate cannot be represented.
- The test suite (test/test.js) spawns the CLI as a child process and is not modelled.

=== FILE: cli.dfy ===
/**
 * The decision logic of bin/bin.js: argument clean-up, and the three commands
 * `lint`, `check-good` and `save-ignored`, each returning the exit code it
 * would pass to `process.exit` (and, for save-ignored, the text it writes to
 * the temporary ignore file) instead of performing the effect.
 */
module Cli {
  import opened Optional
  import opened Text
  import opened Seqs
  import opened IgnoreLists
  import opened Lint

  /**
   * `fixFilesArgs`: absent or empty arguments become null; otherwise every
   * argument is trimmed, one for one.
   */
  function FixFilesArgs(files: Option<seq<string>>): (r: Option<seq<string>>)
    ensures r.None? <==> files.None? || |files.value| == 0
    ensures r.Some? ==> |r.value| == |files.value|
    ensures r.Some? ==> forall i :: 0 <= i < |r.value| ==> r.value[i] == Trim(files.value[i])
  {
    match files
    case None => None
    case Some(fs) =>
      if |fs| == 0 then None
      else Some(seq(|fs|, i requires 0 <= i < |fs| => Trim(fs[i])))
  }

  /** Cleaning up arguments that were already cleaned up changes nothing. */
  lemma FixFilesArgsIdempotent(files: Option<seq<string>>)
    ensures FixFilesArgs(FixFilesArgs(files)) == FixFilesArgs(files)
  {
    var once := FixFilesArgs(files);
    if once.Some? {
      var twice := FixFilesArgs(once);
      forall i | 0 <= i < |once.value|
        ensures twice.value[i] == once.value[i]
      {
        TrimIdempotent(files.value[i]);
      }
      assert twice.value == once.value;
    }
  }

  /** The exit code of a command that failed exactly when `failed` holds. */
  function ExitCode(failed: bool): (code: nat)
  {
    if failed then 1 else 0
  }

  // ---------------------------------------------------------------------------
  // lint
  // ---------------------------------------------------------------------------

  datatype LintOutcome = LintOutcome(exitCode: nat, request: LintRequest, report: Report)

  /**
   * `lint`: lints with both lists excluded and fails exactly when some file
   * outside them has errors.
   */
  function LintCommand(files: Option<seq<string>>, disk: Disk, cwd: string, engine: Engine): (o: LintOutcome)
    ensures o.exitCode == 1 <==> |o.report.badFiles| > 0
    ensures o.exitCode == 0 <==> |o.report.badFiles| == 0
    ensures o.request.ignorePattern == ForeverIgnored(disk, files) + TemporaryIgnored(disk, files)
    ensures o.report.ignoredFilesNum == |TemporaryIgnored(disk, files)|
    ensures o.exitCode == 1 <==> |engine(o.request).errorPaths| > 0
    ensures o.request.targets == files.GetOr([Everything])
    ensures o.report.badFiles == StripAll(engine(o.request).errorPaths, cwd)
    ensures o.report.badFilesNum == |engine(o.request).errorPaths|
  {
    var opts := Options(true, files);
    var report := LintAll(opts, disk, cwd, engine);
    LintOutcome(ExitCode(|report.badFiles| > 0), Plan(opts, disk).request, report)
  }

  // ---------------------------------------------------------------------------
  // check-good
  // ---------------------------------------------------------------------------

  /** The filter `check-good` applies: entries that are no longer bad. */
  function NotIn(bad: seq<string>): string -> bool
  {
    (item: string) => item !in bad
  }

  /**
   * `ignoredFiles.filter(item => !badFiles.includes(item))`: the temporary
   * entries that the current lint no longer reports, in the list's order.
   */
  function NowGood(ignored: seq<string>, bad: seq<string>): (r: seq<string>)
    ensures IsSubsequence(r, ignored)
    ensures forall x :: x in r <==> x in ignored && x !in bad
    ensures forall x :: multiset(r)[x] == if x in bad then 0 else multiset(ignored)[x]
  {
    Filter(ignored, NotIn(bad))
  }

  /** Drift is empty exactly when every ignored entry is still bad. */
  lemma NoDriftIffStillBad(ignored: seq<string>, bad: seq<string>)
    ensures |NowGood(ignored, bad)| == 0 <==> forall i :: 0 <= i < |ignored| ==> ignored[i] in bad
  {
    var r := NowGood(ignored, bad);
    if |r| > 0 {
      assert r[0] in r;
    }
    if exists i :: 0 <= i < |ignored| && ignored[i] !in bad {
      var i :| 0 <= i < |ignored| && ignored[i] !in bad;
      assert ignored[i] in r;
    }
  }

  datatype CheckGoodOutcome = CheckGoodOutcome(exitCode: nat, nowGood: seq<string>, request: LintRequest, report: Report)

  /**
   * `checkGood`: lints with only the permanent list excluded, so that the
   * temporarily ignored files are examined again, and fails exactly when some
   * of them are no longer bad.
   */
  function CheckGood(files: Option<seq<string>>, disk: Disk, cwd: string, engine: Engine): (o: CheckGoodOutcome)
    ensures o.exitCode == 1 <==> |o.nowGood| > 0
    ensures o.exitCode == 0 <==> |o.nowGood| == 0
    ensures o.request.ignorePattern == ForeverIgnored(disk, files)
    ensures o.request.targets == files.GetOr([Everything])
    ensures o.report.ignoredFilesNum == 0
    ensures o.report.badFiles == StripAll(engine(o.request).errorPaths, cwd)
    ensures o.nowGood == NowGood(TemporaryIgnored(disk, files), o.report.badFiles)
    ensures forall x :: x in o.nowGood <==> x in TemporaryIgnored(disk, files) && x !in o.report.badFiles
  {
    var ignored := TemporaryIgnored(disk, files);
    var opts := Options(false, files);
    var report := LintAll(opts, disk, cwd, engine);
    var nowGood := NowGood(ignored, report.badFiles);
    CheckGoodOutcome(ExitCode(|nowGood| > 0), nowGood, Plan(opts, disk).request, report)
  }

  // ---------------------------------------------------------------------------
  // save-ignored
  // ---------------------------------------------------------------------------

  datatype SaveOutcome = SaveOutcome(exitCode: nat, written: string, report: Report)

  /** No entry contains a line separator, so each one stays a line of its own. */
  predicate SingleLines(xs: seq<string>)
  {
    forall i :: 0 <= i < |xs| ==> NewLine !in xs[i]
  }

  /**
   * `saveIgnored`: lints with only the permanent list excluded and writes the
   * bad paths, one per line, as the new content of the temporary list.
   */
  function SaveIgnored(files: Option<seq<string>>, disk: Disk, cwd: string, engine: Engine): (o: SaveOutcome)
    ensures o.exitCode == 0
    ensures SingleLines(o.report.badFiles) ==>
              Split(o.written) == if |o.report.badFiles| == 0 then [""] else o.report.badFiles
    ensures o.written == Join(o.report.badFiles)
    ensures o.report.badFiles == StripAll(engine(Plan(Options(false, files), disk).request).errorPaths, cwd)
    ensures o.report.ignoredFilesNum == 0
  {
    var report := LintAll(Options(false, files), disk, cwd, engine);
    var written := Join(report.badFiles);
    assert SingleLines(report.badFiles) ==> Split(written) == if |report.badFiles| == 0 then [""] else report.badFiles by {
      if SingleLines(report.badFiles) {
        SplitJoin(report.badFiles);
      }
    }
    SaveOutcome(0, written, report)
  }

  /**
   * The snapshot replaces, and never merges with, what the temporary list held:
   * whatever it held before, the same lint writes the same text.
   */
  lemma {:induction false} SnapshotReplacesPrior(files: Option<seq<string>>, disk: Disk, prior: FileState, cwd: string, engine: Engine)
    ensures SaveIgnored(files, disk.(temporary := prior), cwd, engine) == SaveIgnored(files, disk, cwd, engine)
  {
    TemporaryIrrelevantWithoutIgnoreBad(files, disk, prior, cwd, engine);
  }

  /** The disk after save-ignored wrote its snapshot. */
  function AfterSave(files: Option<seq<string>>, disk: Disk, cwd: string, engine: Engine): (saved: Disk)
  {
    disk.(temporary := Present(SaveIgnored(files, disk, cwd, engine).written))
  }

  /**
   * Round trip: reading the snapshot back as the temporary list gives the bad
   * paths again, when there is at least one, none spans lines, and the file
   * arguments either are "." or cover every bad path by prefix.
   */
  lemma {:induction false} SnapshotRoundTrip(files: seq<string>, disk: Disk, cwd: string, engine: Engine)
    requires var bad := SaveIgnored(Some(files), disk, cwd, engine).report.badFiles;
             && |bad| > 0 && SingleLines(bad)
             && (IsEverything(files) || forall i :: 0 <= i < |bad| ==> MatchesFileSet(bad[i], files))
    ensures TemporaryIgnored(AfterSave(Some(files), disk, cwd, engine), Some(files))
            == SaveIgnored(Some(files), disk, cwd, engine).report.badFiles
  {
    var o := SaveIgnored(Some(files), disk, cwd, engine);
    assert Split(o.written) == o.report.badFiles;
    if !IsEverything(files) {
      AllLinesMatch(o.written, files);
    }
  }

  /**
   * The edge case of the round trip: with no bad paths the snapshot is the
   * empty text, which reads back under "." as one empty entry, not as no entry.
   */
  lemma {:induction false} EmptySnapshotReadsBackOneBlank(files: seq<string>, disk: Disk, cwd: string, engine: Engine)
    requires IsEverything(files)
    requires |SaveIgnored(Some(files), disk, cwd, engine).report.badFiles| == 0
    ensures SaveIgnored(Some(files), disk, cwd, engine).written == ""
    ensures TemporaryIgnored(AfterSave(Some(files), disk, cwd, engine), Some(files)) == [""]
  {
    var o := SaveIgnored(Some(files), disk, cwd, engine);
    assert o.written == Join([]);
  }

  /**
   * A fresh snapshot leaves no drift: check-good straight after save-ignored,
   * with the same arguments and the same linter, succeeds, provided the
   * snapshot round-trips.
   */
  lemma {:induction false} NoDriftAfterSnapshot(files: seq<string>, disk: Disk, cwd: string, engine: Engine)
    requires var bad := SaveIgnored(Some(files), disk, cwd, engine).report.badFiles;
             && |bad| > 0 && SingleLines(bad)
             && (IsEverything(files) || forall i :: 0 <= i < |bad| ==> MatchesFileSet(bad[i], files))
    ensures CheckGood(Some(files), AfterSave(Some(files), disk, cwd, engine), cwd, engine).exitCode == 0
  {
    var saved := AfterSave(Some(files), disk, cwd, engine);
    var bad := SaveIgnored(Some(files), disk, cwd, engine).report.badFiles;
    SnapshotRoundTrip(files, disk, cwd, engine);
    TemporaryIrrelevantWithoutIgnoreBad(Some(files), disk, saved.temporary, cwd, engine);
    var o := CheckGood(Some(files), saved, cwd, engine);
    assert o.report.badFiles == bad;
    NoDriftIffStillBad(bad, bad);
  }

  /**
   * A snapshot of a clean run does leave drift: with "." as the first argument,
   * check-good right after it reports the one blank entry as newly good and fails.
   */
  lemma {:induction false} DriftAfterEmptySnapshot(files: seq<string>, disk: Disk, cwd: string, engine: Engine)
    requires IsEverything(files)
    requires |SaveIgnored(Some(files), disk, cwd, engine).report.badFiles| == 0
    ensures CheckGood(Some(files), AfterSave(Some(files), disk, cwd, engine), cwd, engine).nowGood == [""]
    ensures CheckGood(Some(files), AfterSave(Some(files), disk, cwd, engine), cwd, engine).exitCode == 1
  {
    var saved := AfterSave(Some(files), disk, cwd, engine);
    EmptySnapshotReadsBackOneBlank(files, disk, cwd, engine);
    TemporaryIrrelevantWithoutIgnoreBad(Some(files), disk, saved.temporary, cwd, engine);
    var o := CheckGood(Some(files), saved, cwd, engine);
    assert |o.report.badFiles| == 0;
    FilterCons("", [], NotIn(o.report.badFiles));
    assert [""] == [""] + [];
  }

  // ---------------------------------------------------------------------------
  // command dispatch
  // ---------------------------------------------------------------------------

  datatype Command = LintCmd | CheckGoodCmd | SaveIgnoredCmd

  /** How a command run ends. */
  datatype Termination =
    | Exited(code: nat, written: Option<string>)  // normal end; `written` is the new temporary list, if any
    | Threw                                       // an uncaught exception ends the run

  /**
   * A command handler: clean up the file arguments, log them, run the
   * command. Logging joins the cleaned arguments, which throws when they came
   * back null, so empty file arguments end the run before any linting.
   */
  function Run(cmd: Command, argFiles: Option<seq<string>>, disk: Disk, cwd: string, engine: Engine): (t: Termination)
    ensures t.Threw? <==> argFiles.None? || |argFiles.value| == 0
    ensures t.Exited? ==> t.code in {0, 1}
    ensures t.Exited? ==> (t.written.Some? <==> cmd == SaveIgnoredCmd)
    ensures t.Exited? && cmd == SaveIgnoredCmd ==> t.code == 0
    ensures t.Exited? && cmd == LintCmd ==> t.code == LintCommand(FixFilesArgs(argFiles), disk, cwd, engine).exitCode
    ensures t.Exited? && cmd == CheckGoodCmd ==> t.code == CheckGood(FixFilesArgs(argFiles), disk, cwd, engine).exitCode
    ensures t.Exited? && cmd == SaveIgnoredCmd ==> t.written == Some(SaveIgnored(FixFilesArgs(argFiles), disk, cwd, engine).written)
  {
    var files := FixFilesArgs(argFiles);
    if files.None? then Threw
    else
      match cmd
      case LintCmd => Exited(LintCommand(files, disk, cwd, engine).exitCode, None)
      case CheckGoodCmd => Exited(CheckGood(files, disk, cwd, engine).exitCode, None)
      case SaveIgnoredCmd =>
        var o := SaveIgnored(files, disk, cwd, engine);
        Exited(o.exitCode, Some(o.written))
  }

  /**
   * Blanks around the file arguments make no difference: running a command on
   * arguments that were already cleaned up ends the same way.
   */
  lemma {:induction false} RunIgnoresSurroundingBlanks(cmd: Command, argFiles: Option<seq<string>>, disk: Disk, cwd: string, engine: Engine)
    ensures Run(cmd, FixFilesArgs(argFiles), disk, cwd, engine) == Run(cmd, argFiles, disk, cwd, engine)
  {
    FixFilesArgsIdempotent(argFiles);
  }
}

=== FILE: ignore_lists.dfy ===
/**
 * Reading the two ignore lists of slowlint.js: the permanent list
 * `.eslintignore` and the temporary ("known bad") list `now.eslintignore`,
 * both resolved against the working directory.
 */
module IgnoreLists {
  import opened Optional
  import opened Text
  import opened Seqs

  /** The temporary list, rewritten by save-ignored. */
  const TemporaryFileName: string := "now.eslintignore"
  /** The permanent list, never rewritten by the tool. */
  const ForeverFileName: string := ".eslintignore"
  /** A first file argument equal to this means "everything": no prefix filtering. */
  const Everything: string := "."

  /** What reading an ignore file can meet on disk. */
  datatype FileState =
    | Absent              // the file does not exist
    | Unreadable          // it exists but reading it fails
    | Present(text: string)

  /**
   * The two ignore files the tool reads, as found in the working directory:
   * `forever` is the file named `ForeverFileName`, `temporary` the file named
   * `TemporaryFileName`.
   */
  datatype Disk = Disk(forever: FileState, temporary: FileState)

  /** The line starts, as a plain string prefix, with one of the file arguments. */
  predicate MatchesFileSet(line: string, files: seq<string>)
  {
    exists i :: 0 <= i < |files| && StartsWith(line, files[i])
  }

  /** The filter `getIgnoredFiles` applies to each line. */
  function KeepFor(files: seq<string>): string -> bool
  {
    (l: string) => MatchesFileSet(l, files)
  }

  /** The file arguments name everything: only the first argument is looked at. */
  predicate IsEverything(files: seq<string>)
  {
    |files| > 0 && files[0] == Everything
  }

  /**
   * `getIgnoredFiles` and `getIgnoredForeverFiles`: the lines of the file, all of
   * them when the first file argument is ".", otherwise those starting with some
   * file argument. A missing or unreadable file gives no entries, and so do
   * absent (null) file arguments, whose indexing throws and is caught. Lines
   * are neither trimmed, rebased nor deduplicated, and blank lines are kept.
   */
  function ReadIgnoreList(file: FileState, files: Option<seq<string>>): (r: seq<string>)
    ensures !file.Present? || files.None? ==> r == []
    ensures file.Present? && files.Some? && IsEverything(files.value) ==> r == Split(file.text)
    ensures file.Present? && files.Some? ==> |r| <= NewLines(file.text) + 1
    ensures file.Present? && files.Some? && !IsEverything(files.value) ==>
              && IsSubsequence(r, Split(file.text))
              && forall l :: multiset(r)[l] == if MatchesFileSet(l, files.value) then multiset(Split(file.text))[l] else 0
  {
    match file
    case Absent => []
    case Unreadable => []
    case Present(text) =>
      match files
      case None => []
      case Some(fs) =>
        var lines := Split(text);
        if IsEverything(fs) then lines
        else Filter(lines, KeepFor(fs))
  }

  /**
   * `getIgnoredFiles(files)`: the temporary list restricted to the file
   * arguments. A read failure, missing file included, is caught and gives no
   * entries; every entry kept by the prefix filter matches some argument.
   */
  function TemporaryIgnored(disk: Disk, files: Option<seq<string>>): (r: seq<string>)
    ensures !disk.temporary.Present? || files.None? ==> r == []
    ensures disk.temporary.Present? && files.Some? && IsEverything(files.value) ==> r == Split(disk.temporary.text)
    ensures files.Some? && !IsEverything(files.value) ==> forall i :: 0 <= i < |r| ==> MatchesFileSet(r[i], files.value)
  {
    var r := ReadIgnoreList(disk.temporary, files);
    EntriesMatch(disk.temporary, files);
    r
  }

  /**
   * `getIgnoredForeverFiles(files)`: the permanent list restricted to the file
   * arguments. A missing file is checked for first and gives no entries, and
   * so does a failing read; every entry kept by the prefix filter matches some argument.
   */
  function ForeverIgnored(disk: Disk, files: Option<seq<string>>): (r: seq<string>)
    ensures !disk.forever.Present? || files.None? ==> r == []
    ensures disk.forever.Present? && files.Some? && IsEverything(files.value) ==> r == Split(disk.forever.text)
    ensures files.Some? && !IsEverything(files.value) ==> forall i :: 0 <= i < |r| ==> MatchesFileSet(r[i], files.value)
  {
    var r := ReadIgnoreList(disk.forever, files);
    EntriesMatch(disk.forever, files);
    r
  }

  /** Without ".", every entry read from a file matches some file argument. */
  lemma EntriesMatch(file: FileState, files: Option<seq<string>>)
    ensures files.Some? && !IsEverything(files.value) ==>
              forall i :: 0 <= i < |ReadIgnoreList(file, files)| ==> MatchesFileSet(ReadIgnoreList(file, files)[i], files.value)
  {
    if file.Present? && files.Some? && !IsEverything(files.value) {
      var r := ReadIgnoreList(file, files);
      forall i | 0 <= i < |r| ensures MatchesFileSet(r[i], files.value) {
        FilteredMembership(file.text, files.value, r[i]);
      }
    }
  }

  /**
   * Every entry of a filtered list matches a file argument, and every matching
   * line of the file is an entry: the filter is exact in both directions.
   */
  lemma FilteredMembership(text: string, files: seq<string>, l: string)
    requires !IsEverything(files)
    ensures l in ReadIgnoreList(Present(text), Some(files)) <==> l in Split(text) && MatchesFileSet(l, files)
  {
    var r := ReadIgnoreList(Present(text), Some(files));
    assert l in r <==> multiset(r)[l] > 0;
    assert l in Split(text) <==> multiset(Split(text))[l] > 0;
  }

  /** When every line matches some file argument, filtering gives all the lines. */
  lemma {:induction false} AllLinesMatch(text: string, files: seq<string>)
    requires forall i :: 0 <= i < |Split(text)| ==> MatchesFileSet(Split(text)[i], files)
    ensures ReadIgnoreList(Present(text), Some(files)) == Split(text)
  {
    if !IsEverything(files) {
      FilterKeepsAll(Split(text), KeepFor(files));
    }
  }

  /** With no file arguments at all (an empty array) nothing is ignored. */
  lemma NoFileArgumentsNoEntries(file: FileState)
    ensures ReadIgnoreList(file, Some([])) == []
  {
    if file.Present? {
      var r := ReadIgnoreList(file, Some([]));
      if |r| > 0 {
        FilteredMembership(file.text, [], r[0]);
      }
    }
  }

  /** Two lines a file holds, with the separator between them. */
  lemma {:induction false} SplitTwoLines(a: string, b: string)
    requires NewLine !in a && NewLine !in b
    ensures Split(a + [NewLine] + b) == [a, b]
  {
    var lines := [a, b];
    assert lines[1..] == [b];
    assert Join(lines) == a + [NewLine] + b;
    SplitJoin(lines);
  }

  /** Without ".", reading a present file is filtering its lines. */
  lemma ReadFiltered(text: string, files: seq<string>)
    requires !IsEverything(files)
    ensures ReadIgnoreList(Present(text), Some(files)) == Filter(Split(text), KeepFor(files))
  {
  }

  /** A two-line file, filtered without ".": each line is kept exactly when it matches. */
  lemma {:induction false} ReadTwoLines(a: string, b: string, files: seq<string>)
    requires !IsEverything(files)
    requires NewLine !in a && NewLine !in b
    ensures ReadIgnoreList(Present(a + [NewLine] + b), Some(files))
            == (if MatchesFileSet(a, files) then [a] else []) + (if MatchesFileSet(b, files) then [b] else [])
  {
    SplitTwoLines(a, b);
    ReadFiltered(a + [NewLine] + b, files);
    FilterTwo(a, b, KeepFor(files));
  }

  /**
   * Prefix matching ignores path segments: the argument `dir` keeps a line
   * `dir + more` whatever `more` is, so "test" keeps "testX/a.js".
   */
  lemma PrefixIsNotSegmentAware(dir: string, more: string, other: string)
    requires dir != Everything
    requires NewLine !in dir + more && NewLine !in other
    requires !StartsWith(other, dir)
    ensures ReadIgnoreList(Present(dir + more + [NewLine] + other), Some([dir])) == [dir + more]
  {
    assert !IsEverything([dir]);
    assert MatchesFileSet(dir + more, [dir]) by {
      assert StartsWith(dir + more, [dir][0]);
    }
    assert !MatchesFileSet(other, [dir]);
    ReadTwoLines(dir + more, other, [dir]);
  }

  /** "." means everything only as the FIRST argument; later on it is an ordinary prefix. */
  lemma DotOnlyCountsFirst(first: string, dotted: string, other: string)
    requires first != Everything
    requires NewLine !in dotted && NewLine !in other
    requires StartsWith(dotted, Everything)
    requires !StartsWith(other, first) && !StartsWith(other, Everything)
    ensures ReadIgnoreList(Present(other + [NewLine] + dotted), Some([first, Everything])) == [dotted]
  {
    var fs := [first, Everything];
    assert !IsEverything(fs);
    assert MatchesFileSet(dotted, fs) by {
      assert StartsWith(dotted, fs[1]);
    }
    assert !MatchesFileSet(other, fs) by {
      forall i | 0 <= i < |fs| ensures !StartsWith(other, fs[i]) {
      }
    }
    ReadTwoLines(other, dotted, fs);
  }
}

=== FILE: lint.dfy ===
/**
 * The pure part of `lintAll` in slowlint.js: which ignore patterns the linter
 * is given, and how its raw output becomes the report (stripped bad paths,
 * counts, and a log cut to a readable length). The linter itself is a
 * function parameter: it receives the request and returns the raw outcome.
 */
module Lint {
  import opened Optional
  import opened Text
  import opened IgnoreLists

  /** Longest log kept whole; longer logs are cut here. */
  const LogLimit: nat := 1000
  /** Marker appended to a cut log. */
  const Ellipsis: string := "..."

  /** The options `lintAll` reads (the linter's install path is not modelled). */
  datatype Options = Options(ignoreBad: bool, files: Option<seq<string>>)

  /** What the linter is asked to do: the paths to lint and the patterns to skip. */
  datatype LintRequest = LintRequest(targets: seq<string>, ignorePattern: seq<string>)

  /** How many temporary entries are excluded, next to the request itself. */
  datatype LintPlan = LintPlan(request: LintRequest, ignoredFilesNum: nat)

  /**
   * The linter's raw outcome: the absolute path of every file with at least
   * one error, how many files its counting preprocessor saw, and the
   * formatter's rendering of the error results.
   */
  datatype EngineOutput = EngineOutput(errorPaths: seq<string>, processed: nat, formatted: string)

  /** The linter, as seen by the tool. */
  type Engine = LintRequest -> EngineOutput

  /** The object `lintAll` returns. The good count is plain integer arithmetic. */
  datatype Report = Report(
    ignoredFilesNum: nat,
    badFiles: seq<string>,
    goodFilesNum: int,
    badFilesNum: nat,
    logs: string)

  /**
   * The request `lintAll` sends: the permanent list always, the temporary list
   * after it only with `ignoreBad`; the targets are the file arguments, or "."
   * when there are none (null).
   */
  function Plan(opts: Options, disk: Disk): (p: LintPlan)
    ensures opts.ignoreBad ==>
              && p.request.ignorePattern == ForeverIgnored(disk, opts.files) + TemporaryIgnored(disk, opts.files)
              && p.ignoredFilesNum == |TemporaryIgnored(disk, opts.files)|
    ensures !opts.ignoreBad ==>
              && p.request.ignorePattern == ForeverIgnored(disk, opts.files)
              && p.ignoredFilesNum == 0
    ensures p.request.targets == opts.files.GetOr([Everything])
  {
    var forever := ForeverIgnored(disk, opts.files);
    var targets := match opts.files case Some(fs) => fs case None => [Everything];
    if opts.ignoreBad then
      var temporary := TemporaryIgnored(disk, opts.files);
      LintPlan(LintRequest(targets, forever + temporary), |temporary|)
    else
      LintPlan(LintRequest(targets, forever), 0)
  }

  /** The prefix stripped from each bad path: the working directory and a slash. */
  function CwdPrefix(cwd: string): string
  {
    cwd + "/"
  }

  /**
   * `filePath.replace(cwd + '/', '')`: the working-directory prefix is removed
   * from a path under it; only the first occurrence is removed, wherever it is,
   * and a path that does not contain it is left alone.
   */
  function StripCwd(path: string, cwd: string): (r: string)
    ensures StartsWith(path, CwdPrefix(cwd)) ==> r == path[|cwd| + 1..]
    ensures (forall j :: !OccursAt(path, CwdPrefix(cwd), j)) ==> r == path
    ensures (exists j :: OccursAt(path, CwdPrefix(cwd), j)) ==> |r| == |path| - |cwd| - 1
    ensures forall i :: OccursAt(path, CwdPrefix(cwd), i) && (forall j :: 0 <= j < i ==> !OccursAt(path, CwdPrefix(cwd), j)) ==>
              r == path[..i] + path[i + |cwd| + 1..]
  {
    RemoveFirst(path, CwdPrefix(cwd))
  }

  /**
   * The log cut at `LogLimit` characters with the ellipsis marker appended:
   * short logs are untouched, long ones keep their first 1000 characters.
   */
  function TruncateLog(logs: string): (r: string)
    ensures |r| <= LogLimit + |Ellipsis|
    ensures |logs| <= LogLimit ==> r == logs
    ensures |logs| > LogLimit ==> |r| == LogLimit + |Ellipsis| && logs[..LogLimit] <= r && Ellipsis <= r[LogLimit..]
  {
    if |logs| > LogLimit then logs[..LogLimit] + Ellipsis else logs
  }

  /** A path under the working directory is the directory, a slash, and its stripped form. */
  lemma StripCwdRestores(path: string, cwd: string)
    requires StartsWith(path, CwdPrefix(cwd))
    ensures CwdPrefix(cwd) + StripCwd(path, cwd) == path
  {
    assert path == path[..|cwd| + 1] + path[|cwd| + 1..];
  }

  /** Cutting a log that was already cut changes nothing. */
  lemma TruncateIdempotent(logs: string)
    ensures TruncateLog(TruncateLog(logs)) == TruncateLog(logs)
  {
    var r := TruncateLog(logs);
    if |logs| > LogLimit {
      assert r[..LogLimit] == logs[..LogLimit];
    }
  }

  /** The bad paths relative to the working directory, in the linter's order. */
  function StripAll(paths: seq<string>, cwd: string): (r: seq<string>)
    ensures |r| == |paths|
    ensures forall i :: 0 <= i < |paths| ==> r[i] == StripCwd(paths[i], cwd)
  {
    seq(|paths|, i requires 0 <= i < |paths| => StripCwd(paths[i], cwd))
  }

  /** The report `lintAll` builds from the linter's output. */
  function BuildReport(ignoredFilesNum: nat, out: EngineOutput, cwd: string): (rep: Report)
    ensures rep.ignoredFilesNum == ignoredFilesNum
    ensures rep.badFilesNum == |rep.badFiles| == |out.errorPaths|
    ensures rep.goodFilesNum + rep.badFilesNum == out.processed
    ensures rep.badFiles == StripAll(out.errorPaths, cwd)
    ensures |rep.logs| <= LogLimit + |Ellipsis|
    ensures rep.logs == TruncateLog(out.formatted)
  {
    var bad := StripAll(out.errorPaths, cwd);
    Report(ignoredFilesNum, bad, out.processed - |bad|, |bad|, TruncateLog(out.formatted))
  }

  /** `lintAll(options)`: plan the request, run the linter, build the report. */
  function LintAll(opts: Options, disk: Disk, cwd: string, engine: Engine): (rep: Report)
    ensures rep.ignoredFilesNum == if opts.ignoreBad then |TemporaryIgnored(disk, opts.files)| else 0
    ensures rep.badFilesNum == |rep.badFiles| == |engine(Plan(opts, disk).request).errorPaths|
    ensures rep.goodFilesNum + rep.badFilesNum == engine(Plan(opts, disk).request).processed
    ensures rep.badFiles == StripAll(engine(Plan(opts, disk).request).errorPaths, cwd)
    ensures rep.logs == TruncateLog(engine(Plan(opts, disk).request).formatted)
  {
    var plan := Plan(opts, disk);
    BuildReport(plan.ignoredFilesNum, engine(plan.request), cwd)
  }

  /** The good count is not guaranteed to be non-negative: more bad paths than processed files make it negative. */
  lemma GoodCountCanBeNegative(cwd: string)
    ensures BuildReport(0, EngineOutput(["a.ts"], 0, ""), cwd).goodFilesNum == -1
  {
  }

  /**
   * Without `ignoreBad` the temporary list plays no part: the request and the
   * report are the same whatever the temporary file holds.
   */
  lemma {:induction false} TemporaryIrrelevantWithoutIgnoreBad(files: Option<seq<string>>, disk: Disk, temporary: FileState, cwd: string, engine: Engine)
    ensures Plan(Options(false, files), disk.(temporary := temporary)) == Plan(Options(false, files), disk)
    ensures LintAll(Options(false, files), disk.(temporary := temporary), cwd, engine) == LintAll(Options(false, files), disk, cwd, engine)
  {
    assert ForeverIgnored(disk.(temporary := temporary), files) == ForeverIgnored(disk, files);
  }

  /** The patterns used without `ignoreBad` are a prefix of those used with it. */
  lemma {:induction false} ExclusionGrowsWithIgnoreBad(files: Option<seq<string>>, disk: Disk)
    ensures Plan(Options(false, files), disk).request.ignorePattern <= Plan(Options(true, files), disk).request.ignorePattern
  {
    var forever := ForeverIgnored(disk, files);
    assert forever <= forever + TemporaryIgnored(disk, files);
  }
}

=== FILE: optional.dfy ===
/** A value that may be missing: JavaScript's `null`/`undefined` next to a real value. */
module Optional {

  datatype Option<+T> = None | Some(value: T) {

    /** The wrapped value, or `default` when there is none. */
    function GetOr(default: T): T
    {
      match this
      case Some(v) => v
      case None => default
    }
  }
}

=== FILE: seqs.dfy ===
/** Order-preserving selection from a sequence: JavaScript's `Array.prototype.filter`. */
module Seqs {

  /** `xs` can be obtained from `ys` by deleting elements, keeping the order of the rest. */
  predicate IsSubsequence<T(==)>(xs: seq<T>, ys: seq<T>)
    decreases |ys|
  {
    if |xs| == 0 then true
    else if |ys| == 0 then false
    else (xs[0] == ys[0] && IsSubsequence(xs[1..], ys[1..])) || IsSubsequence(xs, ys[1..])
  }

  /**
   * `xs.filter(keep)`: the elements satisfying `keep`, in their original order
   * and with their original multiplicity; every other element is dropped.
   */
  function Filter<T(==,!new)>(xs: seq<T>, keep: T -> bool): (r: seq<T>)
    ensures |r| <= |xs|
    ensures IsSubsequence(r, xs)
    ensures forall x :: multiset(r)[x] == if keep(x) then multiset(xs)[x] else 0
    ensures forall x :: x in r <==> x in xs && keep(x)
    decreases |xs|
  {
    if |xs| == 0 then []
    else
      assert xs == [xs[0]] + xs[1..];
      var rest := Filter(xs[1..], keep);
      if keep(xs[0]) then
        assert ([xs[0]] + rest)[1..] == rest;
        [xs[0]] + rest
      else rest
  }

  /** A filter that keeps every element is the identity. */
  lemma {:induction false} FilterKeepsAll<T(!new)>(xs: seq<T>, keep: T -> bool)
    requires forall i :: 0 <= i < |xs| ==> keep(xs[i])
    ensures Filter(xs, keep) == xs
    decreases |xs|
  {
    if |xs| > 0 {
      assert keep(xs[0]);
      FilterKeepsAll(xs[1..], keep);
      assert xs == [xs[0]] + xs[1..];
    }
  }

  /** Filtering a sequence with a known first element decides that element first. */
  lemma FilterCons<T(!new)>(x: T, xs: seq<T>, keep: T -> bool)
    ensures Filter([x] + xs, keep) == (if keep(x) then [x] else []) + Filter(xs, keep)
  {
    assert ([x] + xs)[1..] == xs;
  }

  /** Filtering two elements decides each of them in turn. */
  lemma FilterTwo<T(!new)>(x: T, y: T, keep: T -> bool)
    ensures Filter([x, y], keep) == (if keep(x) then [x] else []) + (if keep(y) then [y] else [])
  {
    FilterCons(y, [], keep);
    assert [x, y] == [x] + [y];
    FilterCons(x, [y], keep);
  }
}

=== FILE: text.dfy ===
/**
 * The JavaScript string operations slowlint relies on, over Dafny strings:
 * `startsWith`, `split('\n')`, `join('\n')`, `trim()`, `indexOf` and
 * `replace(pattern, '')` with a string pattern.
 */
module Text {
  import opened Optional

  const NewLine: char := '\n'

  /** `s.startsWith(prefix)`: a plain string prefix, with no notion of path segments. */
  predicate StartsWith(s: string, prefix: string)
  {
    prefix <= s
  }

  /** Number of line separators in `s`. */
  function NewLines(s: string): nat
  {
    multiset(s)[NewLine]
  }

  // ---------------------------------------------------------------------------
  // split('\n') and join('\n')
  // ---------------------------------------------------------------------------

  /**
   * `s.split('\n')`: the pieces between separators. The empty string splits
   * into one empty piece, and a trailing separator yields a trailing empty piece.
   */
  function Split(s: string): (lines: seq<string>)
    ensures |lines| == NewLines(s) + 1
    ensures forall i :: 0 <= i < |lines| ==> NewLine !in lines[i]
    decreases |s|
  {
    if |s| == 0 then [""]
    else
      assert s == [s[0]] + s[1..];
      var rest := Split(s[1..]);
      if s[0] == NewLine then [""] + rest
      else [[s[0]] + rest[0]] + rest[1..]
  }

  /** `xs.join('\n')`: the pieces with one separator between neighbours. */
  function Join(xs: seq<string>): (s: string)
  {
    if |xs| == 0 then ""
    else if |xs| == 1 then xs[0]
    else xs[0] + [NewLine] + Join(xs[1..])
  }

  /** Splitting a piece free of separators, followed by anything, extends the first piece. */
  lemma {:induction false} SplitPrefixFree(a: string, b: string)
    requires NewLine !in a
    ensures Split(a + b) == [a + Split(b)[0]] + Split(b)[1..]
    decreases |a|
  {
    var lb := Split(b);
    if |a| > 0 {
      var ab := a + b;
      assert ab[1..] == a[1..] + b;
      assert ab[0] == a[0];
      SplitPrefixFree(a[1..], b);
      assert [a[0]] + (a[1..] + lb[0]) == a + lb[0];
    } else {
      assert a + b == b;
      assert a + lb[0] == lb[0];
      assert lb == [lb[0]] + lb[1..];
    }
  }

  /** Prepending a non-separator to the first piece prepends it to the joined text. */
  lemma {:induction false} JoinExtendFirst(c: char, xs: seq<string>)
    requires |xs| > 0
    ensures Join([[c] + xs[0]] + xs[1..]) == [c] + Join(xs)
  {
    var ys := [[c] + xs[0]] + xs[1..];
    assert ys[0] == [c] + xs[0];
    assert ys[1..] == xs[1..];
    if |xs| > 1 {
      assert Join(ys) == ([c] + xs[0]) + [NewLine] + Join(xs[1..]);
      assert Join(xs) == xs[0] + [NewLine] + Join(xs[1..]);
    }
  }

  /** An empty first piece contributes just the separator after it. */
  lemma JoinEmptyFirst(xs: seq<string>)
    requires |xs| > 0
    ensures Join([""] + xs) == [NewLine] + Join(xs)
  {
    var ys := [""] + xs;
    assert ys[0] == "" && ys[1..] == xs;
  }

  /** One step of `split` on a non-empty text. */
  lemma SplitStep(s: string)
    requires |s| > 0
    ensures s[0] == NewLine ==> Split(s) == [""] + Split(s[1..])
    ensures s[0] != NewLine ==> Split(s) == [[s[0]] + Split(s[1..])[0]] + Split(s[1..])[1..]
  {
  }

  /** Joining what `split` produced gives back the original text, for every text. */
  lemma {:induction false} JoinSplit(s: string)
    ensures Join(Split(s)) == s
    decreases |s|
  {
    if |s| > 0 {
      var rest := Split(s[1..]);
      JoinSplit(s[1..]);
      SplitStep(s);
      if s[0] == NewLine {
        JoinEmptyFirst(rest);
      } else {
        JoinExtendFirst(s[0], rest);
      }
      assert s == [s[0]] + s[1..];
    }
  }

  /**
   * Splitting what `join` produced gives back the pieces, provided no piece holds
   * a separator, with one exception: the empty list joins to "" and that splits
   * into one empty piece.
   */
  lemma {:induction false} SplitJoin(xs: seq<string>)
    requires forall i :: 0 <= i < |xs| ==> NewLine !in xs[i]
    ensures Split(Join(xs)) == if |xs| == 0 then [""] else xs
    decreases |xs|
  {
    if |xs| == 1 {
      SplitPrefixFree(xs[0], "");
      assert xs[0] + "" == xs[0];
    } else if |xs| > 1 {
      var head, rest := xs[0], xs[1..];
      assert NewLine !in head;
      assert forall i :: 0 <= i < |rest| ==> NewLine !in rest[i] by {
        forall i | 0 <= i < |rest| ensures NewLine !in rest[i] {
          assert rest[i] == xs[i + 1];
        }
      }
      var tail := Join(rest);
      SplitJoin(rest);
      SplitAfterNewLine(tail);
      var nt := [NewLine] + tail;
      assert Join(xs) == head + nt;
      SplitPrefixFree(head, nt);
      assert Split(nt) == [""] + rest;
      assert head + "" == head;
      assert xs == [head] + rest;
    }
  }

  /** A leading separator contributes one empty first piece. */
  lemma SplitAfterNewLine(t: string)
    ensures Split([NewLine] + t) == [""] + Split(t)
  {
    assert ([NewLine] + t)[1..] == t;
  }

  // ---------------------------------------------------------------------------
  // trim()
  // ---------------------------------------------------------------------------

  /**
   * The characters `String.prototype.trim` removes: the ECMAScript WhiteSpace
   * set (tab, vertical tab, form feed, space, no-break space, byte order mark and
   * the space separators) and the LineTerminator set (LF, CR, LS, PS).
   */
  predicate IsWhitespace(c: char)
  {
    || c == '\t' || c == '\n' || c == '\U{B}' || c == '\U{C}' || c == '\r' || c == ' '
    || c == '\U{A0}' || c == '\U{1680}' || ('\U{2000}' <= c <= '\U{200A}')
    || c == '\U{2028}' || c == '\U{2029}' || c == '\U{202F}' || c == '\U{205F}'
    || c == '\U{3000}' || c == '\U{FEFF}'
  }

  predicate AllWhitespace(s: string)
  {
    forall i :: 0 <= i < |s| ==> IsWhitespace(s[i])
  }

  /** `s` has no whitespace at either end. */
  predicate Trimmed(s: string)
  {
    |s| > 0 ==> !IsWhitespace(s[0]) && !IsWhitespace(s[|s| - 1])
  }

  /** A blank first character in front of a blank stretch makes a longer blank stretch. */
  lemma WhitespaceHead(s: string, k: nat)
    requires 0 < |s| && k < |s| && IsWhitespace(s[0]) && AllWhitespace(s[1..][..k])
    ensures AllWhitespace(s[..k + 1])
  {
    assert s[..k + 1] == [s[0]] + s[1..][..k];
  }

  /** Drops the leading whitespace: a suffix of `s` that starts with a non-blank. */
  function TrimStart(s: string): (r: string)
    ensures |r| <= |s| && r == s[|s| - |r|..]
    ensures AllWhitespace(s[..|s| - |r|])
    ensures |r| > 0 ==> !IsWhitespace(r[0])
    decreases |s|
  {
    if |s| > 0 && IsWhitespace(s[0]) then
      var r := TrimStart(s[1..]);
      WhitespaceHead(s, |s| - 1 - |r|);
      r
    else s
  }

  /** Drops the trailing whitespace: a prefix of `s` that ends with a non-blank. */
  function TrimEnd(s: string): (r: string)
    ensures |r| <= |s| && r == s[..|r|]
    ensures AllWhitespace(s[|r|..])
    ensures |r| > 0 ==> !IsWhitespace(r[|r| - 1])
    decreases |s|
  {
    if |s| > 0 && IsWhitespace(s[|s| - 1]) then
      var r := TrimEnd(s[..|s| - 1]);
      assert s[|r|..] == s[..|s| - 1][|r|..] + [s[|s| - 1]];
      r
    else s
  }

  /** `r` is the slice of `s` at `a`, with nothing but whitespace on either side. */
  predicate IsInnerSlice(s: string, r: string, a: int)
  {
    0 <= a <= |s| - |r| && r == s[a..a + |r|] && AllWhitespace(s[..a]) && AllWhitespace(s[a + |r|..])
  }

  /**
   * A suffix `t` of `s` behind whitespace, cut to a prefix `r` before whitespace,
   * is an inner slice of `s`.
   */
  lemma InnerSliceOfSuffixPrefix(s: string, t: string, r: string)
    requires |t| <= |s| && t == s[|s| - |t|..] && AllWhitespace(s[..|s| - |t|])
    requires |r| <= |t| && r == t[..|r|] && AllWhitespace(t[|r|..])
    ensures IsInnerSlice(s, r, |s| - |t|)
  {
    var a := |s| - |t|;
    assert s[a + |r|..] == t[|r|..];
  }

  /**
   * `s.trim()`: the slice of `s` left after removing whitespace from both ends.
   * The removed head and tail are all whitespace and the slice starts and ends
   * with a non-blank.
   */
  function Trim(s: string): (r: string)
    ensures Trimmed(r)
    ensures exists a :: IsInnerSlice(s, r, a)
  {
    var t := TrimStart(s);
    var r := TrimEnd(t);
    InnerSliceOfSuffixPrefix(s, t, r);
    assert |r| > 0 ==> r[0] == t[0];
    r
  }

  /** A text without blanks at its ends is its own trim. */
  lemma {:induction false} TrimOfTrimmed(s: string)
    requires Trimmed(s)
    ensures Trim(s) == s
  {
    assert TrimStart(s) == s;
    assert TrimEnd(s) == s;
  }

  /** Trimming twice is trimming once. */
  lemma TrimIdempotent(s: string)
    ensures Trim(Trim(s)) == Trim(s)
  {
    TrimOfTrimmed(Trim(s));
  }

  // ---------------------------------------------------------------------------
  // indexOf and replace(pattern, '')
  // ---------------------------------------------------------------------------

  /** `pat` occurs in `s` starting at index `i`. */
  predicate OccursAt(s: string, pat: string, i: int)
  {
    0 <= i && i + |pat| <= |s| && s[i..i + |pat|] == pat
  }

  /** `s.indexOf(pat, k)`: the first occurrence of `pat` at or after `k`, if any. */
  function IndexFrom(s: string, pat: string, k: nat): (r: Option<nat>)
    requires k <= |s|
    ensures r.Some? ==> k <= r.value && OccursAt(s, pat, r.value)
    ensures r.Some? ==> forall j :: k <= j < r.value ==> !OccursAt(s, pat, j)
    ensures r.None? ==> forall j :: k <= j ==> !OccursAt(s, pat, j)
    decreases |s| - k
  {
    if OccursAt(s, pat, k) then Some(k)
    else if k + |pat| >= |s| then None
    else IndexFrom(s, pat, k + 1)
  }

  function IndexOf(s: string, pat: string): (r: Option<nat>)
  {
    IndexFrom(s, pat, 0)
  }

  /**
   * `s.replace(pat, '')` with a string pattern: only the FIRST occurrence of
   * `pat` is removed; a text without `pat` is returned unchanged.
   */
  function RemoveFirst(s: string, pat: string): (r: string)
    ensures StartsWith(s, pat) ==> r == s[|pat|..]
    ensures (forall j :: !OccursAt(s, pat, j)) ==> r == s
    ensures (exists j :: OccursAt(s, pat, j)) ==> |r| == |s| - |pat|
    ensures forall i :: OccursAt(s, pat, i) && (forall j :: 0 <= j < i ==> !OccursAt(s, pat, j)) ==>
              r == s[..i] + s[i + |pat|..]
  {
    match IndexOf(s, pat)
    case None => s
    case Some(i) =>
      assert StartsWith(s, pat) ==> OccursAt(s, pat, 0);
      s[..i] + s[i + |pat|..]
  }

  /**
   * Putting the pattern back where its first occurrence was rebuilds the text:
   * the removal loses nothing but that one occurrence.
   */
  lemma RemoveFirstReinsert(s: string, pat: string, i: nat)
    requires OccursAt(s, pat, i)
    requires forall j :: 0 <= j < i ==> !OccursAt(s, pat, j)
    ensures var r := RemoveFirst(s, pat); i <= |r| && r[..i] + pat + r[i..] == s
  {
    CutAndRestore(s, i, |pat|);
  }

  /** Cutting `n` elements at `i` and putting them back restores the sequence. */
  lemma CutAndRestore(s: string, i: nat, n: nat)
    requires i + n <= |s|
    ensures var r := s[..i] + s[i + n..]; i <= |r| && r[..i] + s[i..i + n] + r[i..] == s
  {
    var r := s[..i] + s[i + n..];
    assert r[..i] == s[..i];
    assert r[i..] == s[i + n..];
    assert s == s[..i] + s[i..i + n] + s[i + n..];
  }
}
